=== FILE: README.md ===
# Ring-buffered constant buffers and reflection-driven binding

This project models, in Dafny, the per-draw uniform data path of a small
Direct3D 12 renderer:

- `ConstantBuffer` (ConstantBuffer.h) owns one persistently mapped
  upload-heap allocation that holds `maxDrawCalls` copies ("slots") of a
  constant block. Each slot's size is rounded up to 256 bytes.
  - `initialize` sizes the allocation and starts at slot 0.
  - `update` copies bytes into the current slot.
  - `getGPUAddress` returns the current slot's address.
  - `next` moves around the ring.
- `Primitive::initialize` (Primitive.h) walks the constant buffers that
  shader reflection reports, in index order. For each one it:
  - records every variable in a name -> (offset, size) map;
  - sizes the block to the largest variable end;
  - initializes a ring buffer of that size and appends it to the
    pixel-stage list. Block 0 reuses the primitive's member buffer.

  With no reflected block, it initializes the member buffer at 256 bytes,
  appends it, and emits a warning.
- `Primitive::apply` binds vertex-stage buffer `i` to root slot `i` and
  pixel-stage buffer `j` to root slot `1 + j`. Each buffer is bound with its
  current address and then advanced.

Modelling choices:

- **Module `ConstantBuffers`** (ConstantBuffer.dfy) holds the `ConstantBuffer`
  class.
  - The mapped memory is an `array<bv8>`.
  - The GPU virtual address of the allocation is an abstract `base: nat`,
    given to `Initialize`.
  - Every `unsigned int` is the subset type `u32`. Each 32-bit wrap-around the
    C++ performs is written out with `Wrap32`: `sizeInBytes + 255`, the slot
    times depth product, the slot offset, the index increment, and the
    variable end.
- **Module `Primitives`** (Primitive.dfy) holds the `Primitive` class.
  - Shader reflection is plain data: a sequence of `ShaderBufferDesc`, each
    a name and its variables in index order.
  - The address of the k-th allocation is `gpuAddress(k)`.
  - The command list is the sequence of `Binding(slot, address)` that
    `Apply` returns.
  - The warning is the returned `noBuffersWarning`.
  - The nested reflection loop is split into pieces:
    - `ReflectVariables`, the inner loop over variables;
    - `BuildBlock`, one block's body;
    - `AppendBlock`, one pass of the outer loop, with `AppendMemberBlock` for
      block 0 and `AppendNewBlock` for a later block;
    - `ReflectBlocks`, the outer loop.
  - The two binding loops of `apply`, which differ only in their list and
    first slot, are one method, `BindAndAdvance`, called with first slot 0
    and then with first slot 1.
- The pure functions `RequiredSize`, `InsertAll`, `PlanEntry`, `BuildPlan`,
  `StageBindings` and `BindOrder` state what the loops compute. The methods are proved against them, and the
  lemmas state what these functions mean.

Three behaviours of the code worth knowing:

- Pixel-stage slots start at the fixed slot 1 (Primitive.h:122), not after
  the vertex-stage buffers. `MatchesContiguousLayoutIff` states exactly when the two
  conventions give the same slots: one vertex-stage buffer, or no pixel-stage
  buffer. `SlotsDistinctIff` states exactly when no root slot is bound twice:
  at most one vertex-stage buffer, or no pixel-stage buffer.
- With no reflected block, a 256-byte default buffer is appended
  (Primitive.h:93-98).
- `update` has no bounds check (ConstantBuffer.h:67-69).

## Model

| member | source | states |
|---|---|---|
| ConstantBuffers.AlignUp256 | ConstantBuffer.h:43 | The rounded slot size is a multiple of 256. When `s + 255` does not wrap, it is at least `s` and less than `s + 256`. When it wraps, the 32-bit result is 0. |
| ConstantBuffers.AlignUp256IsLeast | ConstantBuffer.h:43 | Without wrap-around, the rounded size is the least multiple of 256 that is at least `s`. |
| ConstantBuffers.NextIndex | ConstantBuffer.h:75-80 | One `next` always leaves the index in the ring (below the depth, or 0), from any starting index. It yields `i + 1` below the depth and 0 when the increment reaches the depth. |
| ConstantBuffers.NextIndexIsModular | ConstantBuffer.h:75-80 | Inside the ring, `next` is the successor modulo the ring depth. |
| ConstantBuffers.AdvanceByIsModular | ConstantBuffer.h:75-80 | `k` calls of `next` from an index inside the ring give `(i + k) mod depth`. |
| ConstantBuffers.AdvanceFullCycle | ConstantBuffer.h:75-80 | `maxDrawCalls` calls of `next` return the index to where it started, and no smaller positive number of calls does. |
| ConstantBuffers.SlotInAllocation | ConstantBuffer.h:44 | When slot size times depth fits in 32 bits, slot `i`'s offset does not wrap: it equals `i * slot`. The slot ends inside the `slot * depth`-byte allocation. |
| ConstantBuffers.SlotOffset | ConstantBuffer.h:68-72 | The byte offset of the current slot is the 32-bit `offsetIndex * cbSizeInBytes`. It equals the exact product exactly when that product is below 2^32. |
| ConstantBuffers.SlotAddress | ConstantBuffer.h:71-73 | When the ring fits in 32 bits and the index is inside it, the slot address is `base + i * slot`, and the slot ends inside the allocation. |
| ConstantBuffers.NextAddressStep | ConstantBuffer.h:71-80 | When slot size times depth fits in 32 bits and the index is in the ring, the slot address after `next` grows by exactly one slot size, or returns to the base address at the end of the ring. |
| ConstantBuffers.Overwrite | ConstantBuffer.h:68 | After a `memcpy` of `d` at offset `off`: the length is kept, the window holds `d`, and the bytes before and after it are unchanged. |
| ConstantBuffers.OverwriteAt | ConstantBuffer.h:68 | Byte `p` after the copy is the copied byte inside the window, and the old byte outside it. |
| ConstantBuffers.OverwriteTwice | ConstantBuffer.h:67-69 | A second `update` of the same length into the same slot completely replaces the first. |
| ConstantBuffers.ConstantBuffer.constructor | Primitive.h:62 | `new ConstantBuffer()` value-initializes: the sizes, depth and index are 0, the layout and name are empty, and the mapped allocation is empty (the C++ pointer is null). |
| ConstantBuffers.ConstantBuffer.Initialize | ConstantBuffer.h:41-45 | Records the ring depth (default 1024), rounds the slot size up to 256 bytes, and allocates `slot * depth` bytes (32-bit) fresh at the given GPU address. It resets `offsetIndex` to 0, keeps name and layout, and establishes the ring invariant. |
| ConstantBuffers.ConstantBuffer.Update | ConstantBuffer.h:67-69 | The allocation afterwards is the old one with the first `sizeInBytes` bytes of `data` at `offsetIndex * cbSizeInBytes`. Reading the current slot returns them. A copy no longer than a slot leaves every byte outside the current slot unchanged. Only the mapped bytes change. |
| ConstantBuffers.ConstantBuffer.GetGPUAddress | ConstantBuffer.h:71-73 | Reads state and changes none. The result is at least the base. When the ring fits in 32 bits and the index is in the ring, it is `base + offsetIndex * cbSizeInBytes`, and the whole slot lies inside the allocation. |
| ConstantBuffers.ConstantBuffer.Next | ConstantBuffer.h:75-80 | `offsetIndex` becomes its ring successor, and no other field changes. The ring invariant is preserved. When slot size times depth fits in 32 bits and the index is in the ring, the address grows by one slot, or returns to the base on wrap. |
| Primitives.EndOffset | Primitive.h:78 | A variable's end is the 32-bit `StartOffset + Size`. It equals the exact sum exactly when that sum is below 2^32. |
| Primitives.RequiredSize | Primitive.h:63-78 | The running `totalSize`: 0 for a block without variables, and never below the end of the last variable seen. `RequiredSizeIsMax` proves it is the largest end. |
| Primitives.RequiredSizeIsMax | Primitive.h:63-79 | A block's required size bounds every 32-bit variable end (`EndOffset`) and equals one of them. It is 0 for a block without variables. |
| Primitives.InsertVariable | Primitive.h:77 | One `std::map::insert`: the variable's name becomes a key, a name already present keeps its entry, and a new name maps to the variable. No other key appears. |
| Primitives.InsertAll | Primitive.h:66-79 | Inserting a block in reflection order keeps every name already in the layout and records the last variable's name. `InsertAllKeys`, `InsertAllKeeps` and `InsertAllFirst` give the full picture. |
| Primitives.InsertAllKeys | Primitive.h:72-77 | After a block is inserted, the layout's names are exactly the names it had before plus the block's variable names. |
| Primitives.InsertAllKeeps | Primitive.h:77 | `std::map::insert` never overwrites: every entry already in the layout keeps its value. |
| Primitives.InsertAllFirst | Primitive.h:72-77 | A name new to the layout maps to the first variable of the block that carries it, with its offset and size. A duplicate name keeps the first entry. |
| Primitives.ReflectVariables | Primitive.h:63-79 | The inner reflection loop leaves `totalSize` at the block's required size (the largest variable end). The buffer's layout becomes the old layout with every variable inserted in index order. |
| Primitives.PlanEntry | Primitive.h:62-83 | One block's buffer carries the block's name and keeps every name of the layout it starts from. A block without variables leaves the layout as it was and requests size 0. |
| Primitives.BuildPlan | Primitive.h:56-98 | There is one entry per reflected block, each named after its block, or exactly the 256-byte default entry for the member buffer when there is none. |
| Primitives.BuildBlock | Primitive.h:62-83 | One reflected block initializes its buffer: the block's name and the layout with the block's variables. The slot size is the required size rounded to 256, the ring depth 1024, the index 0, and the allocation fresh. |
| Primitives.BuildPlanShape | Primitive.h:56-98 | There is one plan entry per reflected block in index order, or a single 256-byte default entry when there is none. Each entry carries its block's name, a size that bounds every variable end, and every variable name. A block without variables gets slot size 0. |
| Primitives.VariablesFitInSlot | Primitive.h:78-83 | When every variable end plus 255 stays below 2^32, every variable lies inside one slot of its block's buffer. |
| Primitives.GlobalsAndLightsPlan | Primitive.h:56-89 | Blocks `Globals{time: 0, 4}` and `Lights{lights: 0, 64}` give two buffers in that order. Their required sizes are 4 and 64, each slot is 256 bytes, and each layout holds its variable. |
| Primitives.PlanOfInitialize | Primitive.h:53-98 | What the reflection loop appended, with or without the default block, is exactly the plan. |
| Primitives.StageBindings | Primitive.h:116-123 | One binding loop records one binding per buffer: buffer `i` at slot `firstSlot + i` with its address. The slots strictly increase, so a stage never binds a slot twice. |
| Primitives.BindOrder | Primitive.h:114-125 | The recorded bindings are vertex-stage buffer `i` at slot `i`, then pixel-stage buffer `j` at slot `1 + j`, each with its given address. |
| Primitives.SlotsDistinctIff | Primitive.h:117-122 | No two bindings share a root slot exactly when there is at most one vertex-stage buffer or no pixel-stage buffer. |
| Primitives.MatchesContiguousLayoutIff | Primitive.h:120-122 | The fixed offset 1 gives the same slots as the contiguous layout (pixel slots after the vertex slots) exactly when there is one vertex-stage buffer or no pixel-stage buffer. |
| Primitives.OneVertexTwoPixelBindings | Primitive.h:114-125 | One vertex-stage and two pixel-stage buffers bind slots 0, 1 and 2 in that order, with no slot shared. |
| Primitives.BindAndAdvance | Primitive.h:116-124 | One binding loop records buffer `i` at slot `firstSlot + i` with its address from before the loop. Afterwards every buffer of the list has advanced exactly once, with nothing else changed. |
| Primitives.Primitive.constructor | Primitive.h:33-35 | A new primitive owns a fresh member buffer with an empty layout, and both stage lists are empty. The source leaves the member buffer's sizes, index and pointers indeterminate until `initialize`; the model picks zeros, and no contract reads them before `Initialize` sets them. |
| Primitives.Primitive.AppendMemberBlock | Primitive.h:62-86 | Block 0 builds the member buffer in place, on top of its existing layout, with a fresh allocation, and pushes it onto the pixel-stage list. |
| Primitives.Primitive.AppendNewBlock | Primitive.h:62-86 | A later block builds a fresh buffer, starting from an empty layout, with a fresh allocation, and pushes it onto the pixel-stage list. |
| Primitives.Primitive.AppendBlock | Primitive.h:62-86 | One pass of the reflection loop picks the member buffer for block 0 and a fresh buffer otherwise. It builds the buffer from the block, with a fresh allocation, and pushes it onto the pixel-stage list. The buffers built so far stay pairwise different, with pairwise separate allocations. The vertex-stage list is unchanged. |
| Primitives.Primitive.ReflectBlocks | Primitive.h:53-89 | The reflection loop appends one buffer per reflected block, in index order, onto the pixel-stage list. Block 0 is the member buffer and later ones are fresh objects. Every appended buffer has a fresh allocation of its own. The buffers and their allocations are pairwise different, and each buffer is initialized from its block at the address of its allocation. `constantBufferFound` holds exactly when a block was reflected. |
| Primitives.Primitive.Initialize | Primitive.h:53-98 | Keeps the old pixel-stage entries and appends exactly the plan, with the member buffer first. This is the reflected blocks in order, or the member buffer at 256 bytes when there is none. The warning is reported exactly in that case. Buffers after the first are fresh. Every appended buffer has a fresh allocation, and no two share one. The vertex-stage list is unchanged. Starting from empty lists, the result is pairwise different buffers. |
| Primitives.Primitive.Apply | Primitive.h:114-125 | Returns the bindings `BindOrder` gives for every buffer's address before the call. Every buffer in either list has advanced exactly once, and nothing else in it has changed. |

## Left out

- Direct3D 12 calls are not modelled: `CreateCommittedResource`, `Map`, `GetGPUVirtualAddress`, `D3DReflect`/`GetDesc` and `SetGraphicsRootConstantBufferView`. Their results are parameters (`gpuBase`, `gpuAddress`, the reflection data), and `Apply` returns the bindings. A failed allocation or an unchecked HRESULT is not modelled.
- The rest of `Primitive::initialize` is not modelled: `triangle.initialize(core)`, shader loading through `ShaderManager`, `reflection->Release()` and PSO creation (Primitive.h:38, 40-51, 91, 101). Only the pixel-shader reflection feeds the model. The source never fills `vsConstantBuffers`, so the model only reads that list.
- `Primitive::draw`, the window, the main loop, `Mesh`, `ScreenSpaceTriangle` and `ShaderManager` are outside this model. They are I/O, floating point, or D3D12 wrappers.
- The name-keyed `update("time", &time)` that main.cpp calls is not declared in ConstantBuffer.h, so it is not modelled.
- `buffer->name` (Primitive.h:82) assigns a field that ConstantBuffer.h does not declare. The model gives `ConstantBuffer` a `name` field.
- Ring overrun is not modelled: a slot can be rewritten before the GPU has read it. That depends on GPU timing and frame pacing, which this code does not see.
- Primitives.Primitive.Apply: requires the buffers of both lists to be pairwise different objects. A buffer listed twice would be advanced twice, and that aliasing case is not modelled. `Initialize` on empty lists establishes the requirement.
- ConstantBuffers.ConstantBuffer.Update: requires the copy to lie inside the mapped allocation and `data` to hold `sizeInBytes` bytes. Outside those bounds `memcpy` is undefined behaviour. A copy longer than a slot is allowed, and the model then says only that it runs into the following bytes.
- ConstantBuffers.ConstantBuffer.GetGPUAddress: the 64-bit addition of the base is exact (no 64-bit wrap). The 32-bit product `offsetIndex * cbSizeInBytes` is wrapped as in the source.

=== FILE: ConstantBuffer.dfy ===
/**
  The ring-buffered constant buffer of ConstantBuffer.h.

  One upload-heap allocation holds `maxDrawCalls` copies ("slots") of a constant
  block whose size is rounded up to the 256-byte alignment that Direct3D 12
  demands of constant-buffer views. `offsetIndex` names the slot the CPU writes
  and the GPU reads for the current draw; `Next` moves it around the ring.

  The C++ fields are `unsigned int`, so every 32-bit wrap-around that the source
  performs is written out with `Wrap32`. The GPU virtual address of the
  allocation is an abstract number `base` handed in by the caller.
*/
module ConstantBuffers {

  const U32_MODULUS: nat := 0x1_0000_0000

  /** The values of a C++ `unsigned int`. */
  type u32 = x: int | 0 <= x < 0x1_0000_0000

  type byte = bv8

  /** Constant-buffer views must start on, and span, multiples of 256 bytes. */
  const CB_ALIGNMENT: nat := 256

  /** The default ring depth of `initialize`. */
  const DEFAULT_MAX_DRAW_CALLS: u32 := 1024

  /** What an `unsigned int` keeps of an exact non-negative result. */
  function Wrap32(x: nat): (r: u32)
    ensures r == x <==> x < U32_MODULUS
    ensures (x - r) % U32_MODULUS == 0
  {
    x % U32_MODULUS
  }

  /**
    The slot size for a requested size `s`: the 32-bit sum `s + 255` with its
    low eight bits cleared, which is that sum less its remainder by 256.
  */
  function AlignUp256(s: u32): (r: u32)
    ensures r % CB_ALIGNMENT == 0
    ensures s + 255 < U32_MODULUS ==> s <= r < s + CB_ALIGNMENT
    // as written, a size within 255 of 2^32 wraps and collapses to an empty slot
    ensures s + 255 >= U32_MODULUS ==> r == 0
  {
    var t := Wrap32(s + 255);
    t - t % 256
  }

  /** Without wrap-around, the rounded size is the least multiple of 256 that holds `s`. */
  lemma AlignUp256IsLeast(s: u32, m: nat)
    requires s + 255 < U32_MODULUS
    requires m % CB_ALIGNMENT == 0 && s <= m
    ensures AlignUp256(s) <= m
  {
  }

  /** One reflected field: `ConstantBufferVariable` (byte offset and size in the block). */
  datatype ConstantBufferVariable = ConstantBufferVariable(name: string, offset: u32, size: u32)

  /** The ring invariant on `offsetIndex`: inside the ring, or 0 for an empty ring. */
  predicate InRing(i: u32, depth: u32)
  {
    i < depth || i == 0
  }

  /** The 32-bit successor of slot index `i`, reset to 0 once it reaches the ring depth. */
  function NextIndex(i: u32, depth: u32): (r: u32)
    ensures InRing(r, depth)
    ensures r == if i + 1 < depth then i + 1 else 0
  {
    var j := Wrap32(i + 1);
    if j >= depth then 0 else j
  }

  /** The slot index after `k` calls of `next`. */
  function AdvanceBy(i: u32, depth: u32, k: nat): u32
  {
    if k == 0 then i else NextIndex(AdvanceBy(i, depth, k - 1), depth)
  }

  /** Division by `d` is unique: a quotient and a remainder in range are THE quotient and remainder. */
  lemma ModUnique(a: int, d: int, q: int, r: int)
    requires d > 0 && 0 <= r < d && a == q * d + r
    ensures a % d == r && a / d == q
  {
    var q', r' := a / d, a % d;
    assert a == q' * d + r';
    assert (q - q') * d == r' - r;
    if q > q' {
      MulAtLeast(q - q', d);
    } else if q < q' {
      MulAtLeast(q' - q, d);
    }
  }

  lemma MulAtLeast(a: int, d: int)
    requires a >= 1 && d > 0
    ensures a * d >= d
  {
  }

  /** Inside the ring, `next` is the successor modulo the ring depth. */
  lemma NextIndexIsModular(i: u32, depth: u32)
    requires i < depth
    ensures NextIndex(i, depth) == (i + 1) % depth
  {
    if i + 1 < depth {
      ModUnique(i + 1, depth, 0, i + 1);
    } else {
      ModUnique(i + 1, depth, 1, 0);
    }
  }

  lemma ModSucc(a: nat, d: nat)
    requires d > 0
    ensures (a % d + 1) % d == (a + 1) % d
  {
    var q := a / d;
    assert a == q * d + a % d;
    if a % d + 1 < d {
      ModUnique(a % d + 1, d, 0, a % d + 1);
      ModUnique(a + 1, d, q, a % d + 1);
    } else {
      ModUnique(a % d + 1, d, 1, 0);
      ModUnique(a + 1, d, q + 1, 0);
    }
  }

  /** Inside the ring, `k` advances add `k` modulo the ring depth. */
  lemma {:induction false} AdvanceByIsModular(i: u32, depth: u32, k: nat)
    requires i < depth
    ensures AdvanceBy(i, depth, k) == (i + k) % depth
  {
    if k == 0 {
      ModUnique(i, depth, 0, i);
    } else {
      AdvanceByIsModular(i, depth, k - 1);
      var prev := (i + k - 1) % depth;
      NextIndexIsModular(prev, depth);
      ModSucc(i + k - 1, depth);
    }
  }

  /**
    Calling `next` `maxDrawCalls` times returns the index to where it started,
    and no smaller positive number of calls does: the index runs through the
    whole ring.
  */
  lemma {:induction false} AdvanceFullCycle(i: u32, depth: u32, k: nat)
    requires i < depth
    ensures AdvanceBy(i, depth, depth) == i
    ensures 0 < k < depth ==> AdvanceBy(i, depth, k) != i
  {
    AdvanceByIsModular(i, depth, depth);
    ModUnique(i + depth, depth, 1, i);
    if 0 < k < depth {
      AdvanceByIsModular(i, depth, k);
      if i + k < depth {
        ModUnique(i + k, depth, 0, i + k);
      } else {
        ModUnique(i + k, depth, 1, i + k - depth);
      }
    }
  }

  /**
    The byte offset of slot `i`: slot index times slot size, kept to 32 bits.
    It is the exact product whenever that product fits.
  */
  function SlotOffset(i: u32, slotSize: u32): (r: u32)
    ensures r == i * slotSize <==> i * slotSize < U32_MODULUS
  {
    Wrap32(i * slotSize)
  }

  /** The whole ring fits in 32 bits, so neither the allocation width nor any slot offset wraps. */
  predicate RingFits(slotSize: u32, depth: u32)
  {
    slotSize * depth < U32_MODULUS
  }

  /** Every slot of a ring that fits lies inside the allocation, at `i * slotSize`. */
  lemma SlotInAllocation(i: u32, slotSize: u32, depth: u32)
    requires RingFits(slotSize, depth) && i < depth
    ensures SlotOffset(i, slotSize) == i * slotSize
    ensures i * slotSize + slotSize <= Wrap32(slotSize * depth)
  {
    assert (i + 1) * slotSize <= depth * slotSize by {
      MulMonotone(i + 1, depth, slotSize);
    }
  }

  /**
    `SlotInAllocation` with the base address added and its conditions as an
    antecedent, so that `GetGPUAddress` can use it on every path.
  */
  lemma SlotAddress(base: nat, i: u32, slotSize: u32, depth: u32)
    ensures RingFits(slotSize, depth) && i < depth ==>
      base + SlotOffset(i, slotSize) == base + i * slotSize &&
      base + SlotOffset(i, slotSize) + slotSize <= base + Wrap32(slotSize * depth)
  {
    if RingFits(slotSize, depth) && i < depth {
      SlotInAllocation(i, slotSize, depth);
    }
  }

  lemma MulMonotone(a: nat, b: nat, c: nat)
    requires a <= b
    ensures a * c <= b * c
  {
  }

  /**
    When slot size times depth fits in 32 bits and the index is in the ring,
    advancing one slot moves the address forward by exactly one slot size,
    except at the end of the ring, where it returns to the base address.
  */
  lemma NextAddressStep(base: nat, i: u32, slotSize: u32, depth: u32)
    requires RingFits(slotSize, depth) && i < depth
    ensures base + SlotOffset(NextIndex(i, depth), slotSize) ==
            if i + 1 < depth then base + SlotOffset(i, slotSize) + slotSize else base
  {
    SlotInAllocation(i, slotSize, depth);
    if i + 1 < depth {
      SlotInAllocation(i + 1, slotSize, depth);
    }
  }

  /** The destination bytes `s` after copying the bytes `d` to offset `off`. */
  function Overwrite(s: seq<byte>, off: nat, d: seq<byte>): (r: seq<byte>)
    requires off + |d| <= |s|
    ensures |r| == |s|
    ensures r[off..off + |d|] == d
    ensures r[..off] == s[..off] && r[off + |d|..] == s[off + |d|..]
  {
    s[..off] + d + s[off + |d|..]
  }

  /** Byte `p` after the copy: the copied byte inside the window, the old byte outside it. */
  lemma OverwriteAt(s: seq<byte>, off: nat, d: seq<byte>, p: nat)
    requires off + |d| <= |s| && p < |s|
    ensures Overwrite(s, off, d)[p] == if off <= p < off + |d| then d[p - off] else s[p]
  {
    var r := Overwrite(s, off, d);
    if p < off {
      assert r[p] == r[..off][p];
    } else if p < off + |d| {
      assert r[p] == r[off..off + |d|][p - off];
    } else {
      assert r[p] == r[off + |d|..][p - off - |d|];
    }
  }

  /** A later copy into the same window replaces an earlier one completely. */
  lemma OverwriteTwice(s: seq<byte>, off: nat, d1: seq<byte>, d2: seq<byte>)
    requires off + |d1| <= |s| && |d1| == |d2|
    ensures Overwrite(Overwrite(s, off, d1), off, d2) == Overwrite(s, off, d2)
  {
    var a := Overwrite(Overwrite(s, off, d1), off, d2);
    var b := Overwrite(s, off, d2);
    forall p | 0 <= p < |s|
      ensures a[p] == b[p]
    {
      OverwriteAt(s, off, d1, p);
      OverwriteAt(Overwrite(s, off, d1), off, d2, p);
      OverwriteAt(s, off, d2, p);
    }
  }

  /**
    `ConstantBuffer`: the persistently mapped allocation `buffer`, its GPU
    address `base`, the aligned slot size, the ring depth, the current slot and
    the name -> variable layout that reflection fills in.
  */
  class ConstantBuffer {
    var buffer: array<byte>
    var base: nat
    var cbSizeInBytes: u32
    var maxDrawCalls: u32
    var offsetIndex: u32
    var name: string
    var constantBufferData: map<string, ConstantBufferVariable>

    /** The allocation is `cbSizeInBytes * maxDrawCalls` bytes (32-bit) and the index is in the ring. */
    ghost predicate Valid()
      reads this
    {
      buffer.Length == Wrap32(cbSizeInBytes * maxDrawCalls) &&
      InRing(offsetIndex, maxDrawCalls)
    }

    /**
      The state `initialize` leaves for a block of the given name, layout and
      requested size at GPU address `gpuBase`, with the default ring depth.
    */
    ghost predicate InitializedAs(name': string, layout: map<string, ConstantBufferVariable>, requestedSize: u32, gpuBase: nat)
      reads this
    {
      Valid() && name == name' && constantBufferData == layout &&
      cbSizeInBytes == AlignUp256(requestedSize) && maxDrawCalls == DEFAULT_MAX_DRAW_CALLS &&
      offsetIndex == 0 && base == gpuBase
    }

    /** One `next` and nothing else happened to this buffer. */
    twostate predicate AdvancedOnce()
      reads this
    {
      offsetIndex == NextIndex(old(offsetIndex), old(maxDrawCalls)) &&
      buffer == old(buffer) && base == old(base) &&
      cbSizeInBytes == old(cbSizeInBytes) && maxDrawCalls == old(maxDrawCalls) &&
      name == old(name) && constantBufferData == old(constantBufferData)
    }

    /** A buffer that has not been initialized: no allocation, empty layout. */
    constructor ()
      ensures Valid() && fresh(buffer)
      ensures buffer.Length == 0 && base == 0
      ensures cbSizeInBytes == 0 && maxDrawCalls == 0 && offsetIndex == 0
      ensures name == [] && constantBufferData == map[]
    {
      buffer := new byte[0];
      base := 0;
      cbSizeInBytes, maxDrawCalls, offsetIndex := 0, 0, 0;
      name := [];
      constantBufferData := map[];
    }

    /**
      `initialize`: rounds the size up to a 256-byte slot, records the ring
      depth, allocates `slot * depth` bytes (a 32-bit product in the source)
      at GPU address `gpuBase`, and starts at slot 0.
    */
    method Initialize(sizeInBytes: u32, maxDrawCalls: u32 := DEFAULT_MAX_DRAW_CALLS, gpuBase: nat := 0)
      modifies this
      ensures Valid() && fresh(buffer)
      ensures this.maxDrawCalls == maxDrawCalls
      ensures cbSizeInBytes == AlignUp256(sizeInBytes)
      ensures buffer.Length == Wrap32(cbSizeInBytes * maxDrawCalls)
      ensures offsetIndex == 0 && base == gpuBase
      ensures name == old(name) && constantBufferData == old(constantBufferData)
    {
      this.maxDrawCalls := maxDrawCalls;
      cbSizeInBytes := AlignUp256(sizeInBytes);
      var cbSizeInBytesAligned := Wrap32(cbSizeInBytes * this.maxDrawCalls);
      offsetIndex := 0;
      buffer := new byte[cbSizeInBytesAligned];
      base := gpuBase;
    }

    /**
      `update`: copies `sizeInBytes` bytes of `data` to the start of the
      current slot. The source checks nothing; `memcpy` needs `sizeInBytes`
      readable bytes and the destination inside the mapped allocation. A copy
      no longer than a slot leaves every other slot as it was.
    */
    method Update(data: seq<byte>, sizeInBytes: u32)
      requires sizeInBytes <= |data|
      requires SlotOffset(offsetIndex, cbSizeInBytes) + sizeInBytes <= buffer.Length
      modifies buffer
      ensures buffer[..] == Overwrite(old(buffer[..]), SlotOffset(offsetIndex, cbSizeInBytes), data[..sizeInBytes])
      ensures buffer[SlotOffset(offsetIndex, cbSizeInBytes)..][..sizeInBytes] == data[..sizeInBytes]
      ensures sizeInBytes <= cbSizeInBytes ==>
        forall p :: 0 <= p < buffer.Length && !(SlotOffset(offsetIndex, cbSizeInBytes) <= p < SlotOffset(offsetIndex, cbSizeInBytes) + cbSizeInBytes) ==>
          buffer[p] == old(buffer[p])
    {
      var off := SlotOffset(offsetIndex, cbSizeInBytes);
      for k := 0 to sizeInBytes
        invariant forall p :: 0 <= p < buffer.Length ==>
          buffer[p] == if off <= p < off + k then data[p - off] else old(buffer[p])
      {
        buffer[off + k] := data[k];
      }
      ghost var want := Overwrite(old(buffer[..]), off, data[..sizeInBytes]);
      forall p | 0 <= p < buffer.Length
        ensures buffer[..][p] == want[p]
      {
        OverwriteAt(old(buffer[..]), off, data[..sizeInBytes], p);
      }
      assert buffer[..] == want;
    }

    /**
      `getGPUAddress`: the address of the current slot. When the ring fits in
      32 bits it is `base + offsetIndex * cbSizeInBytes`, and the whole slot
      lies inside the allocation.
    */
    function GetGPUAddress(): (addr: nat)
      reads this
      ensures base <= addr
      ensures RingFits(cbSizeInBytes, maxDrawCalls) && offsetIndex < maxDrawCalls ==>
        addr == base + offsetIndex * cbSizeInBytes &&
        addr + cbSizeInBytes <= base + Wrap32(cbSizeInBytes * maxDrawCalls)
    {
      SlotAddress(base, offsetIndex, cbSizeInBytes, maxDrawCalls);
      base + SlotOffset(offsetIndex, cbSizeInBytes)
    }

    /** `next`: moves to the following slot, back to slot 0 at the ring depth. */
    method Next()
      modifies this`offsetIndex
      ensures AdvancedOnce()
      ensures old(Valid()) ==> Valid()
      ensures old(offsetIndex) < maxDrawCalls && RingFits(cbSizeInBytes, maxDrawCalls) ==>
        GetGPUAddress() == if old(offsetIndex) + 1 < maxDrawCalls then old(GetGPUAddress()) + cbSizeInBytes else base
    {
      ghost var i := offsetIndex;
      offsetIndex := Wrap32(offsetIndex + 1);
      if offsetIndex >= maxDrawCalls {
        offsetIndex := 0;
      }
      if i < maxDrawCalls && RingFits(cbSizeInBytes, maxDrawCalls) {
        NextAddressStep(base, i, cbSizeInBytes, maxDrawCalls);
      }
    }
  }
}

=== FILE: Primitive.dfy ===
/**
  The reflection-driven block builder and the bind/advance protocol of
  Primitive.h.

  `Initialize` walks the constant buffers that shader reflection reports, in
  index order, records each variable in the block's name -> variable layout,
  sizes the block to the furthest variable end, and appends one ring-buffered
  `ConstantBuffer` per block to the pixel-stage list (a single 256-byte default
  block when the shader declares none). `Apply` binds every buffer's current
  slot address to a root-signature slot and then advances the buffer.

  The reflection interface is plain data here (`ShaderBufferDesc`), the GPU
  addresses the device hands out are a function of the allocation's position,
  and the command list is the sequence of `Binding`s that `Apply` records.
*/
module Primitives {
  import opened ConstantBuffers

  /** One reflected constant buffer: its name and its variables in reflection index order. */
  datatype ShaderBufferDesc = ShaderBufferDesc(name: string, variables: seq<ConstantBufferVariable>)

  /** The size `initialize` substitutes when the shader declares no constant buffer. */
  const DEFAULT_BLOCK_SIZE: u32 := 256

  /**
    Where a reflected variable ends: its start offset plus its size, kept to
    32 bits. It is the exact end whenever that sum fits.
  */
  function EndOffset(v: ConstantBufferVariable): (r: u32)
    ensures r == v.offset + v.size <==> v.offset + v.size < U32_MODULUS
  {
    Wrap32(v.offset + v.size)
  }

  /**
    The running `totalSize` of the inner reflection loop over a block's
    variables, in reflection order.
  */
  function RequiredSize(vars: seq<ConstantBufferVariable>): (r: u32)
    ensures vars == [] ==> r == 0
    ensures vars != [] ==> EndOffset(vars[|vars| - 1]) <= r
  {
    if vars == [] then 0
    else
      var prev := RequiredSize(vars[..|vars| - 1]);
      var e := EndOffset(vars[|vars| - 1]);
      if e > prev then e else prev
  }

  /** The required size is the largest variable end, and 0 for a block without variables. */
  lemma {:induction false} RequiredSizeIsMax(vars: seq<ConstantBufferVariable>)
    ensures forall k :: 0 <= k < |vars| ==> EndOffset(vars[k]) <= RequiredSize(vars)
    ensures vars == [] ==> RequiredSize(vars) == 0
    ensures vars != [] ==> exists k :: 0 <= k < |vars| && RequiredSize(vars) == EndOffset(vars[k])
  {
    if vars != [] {
      var n := |vars| - 1;
      var init := vars[..n];
      RequiredSizeIsMax(init);
      assert forall k :: 0 <= k < n ==> init[k] == vars[k];
      if EndOffset(vars[n]) <= RequiredSize(init) && init != [] {
        var j :| 0 <= j < n && RequiredSize(init) == EndOffset(init[j]);
        assert RequiredSize(vars) == EndOffset(vars[j]);
      } else {
        assert RequiredSize(vars) == EndOffset(vars[n]);
      }
    }
  }

  /**
    `std::map::insert` of a variable under its name: the name is recorded, a
    name already present keeps its entry, and a new name maps to `v`.
  */
  function InsertVariable(m: map<string, ConstantBufferVariable>, v: ConstantBufferVariable): (r: map<string, ConstantBufferVariable>)
    ensures r.Keys == m.Keys + {v.name}
    ensures forall n :: n in m ==> r[n] == m[n]
    ensures v.name !in m ==> r[v.name] == v
  {
    if v.name in m then m else m[v.name := v]
  }

  /** No earlier variable of the block carries the name of variable `k`. */
  predicate FirstWithName(vars: seq<ConstantBufferVariable>, k: nat)
    requires k < |vars|
  {
    forall j :: 0 <= j < k ==> vars[j].name != vars[k].name
  }

  /** The names of a block's variables. */
  function Names(vars: seq<ConstantBufferVariable>): set<string>
  {
    set v | v in vars :: v.name
  }

  /** The layout after inserting every variable of a block, in reflection order, into `m`. */
  function InsertAll(m: map<string, ConstantBufferVariable>, vars: seq<ConstantBufferVariable>): (r: map<string, ConstantBufferVariable>)
    ensures m.Keys <= r.Keys
    ensures vars != [] ==> vars[|vars| - 1].name in r
  {
    if vars == [] then m
    else InsertVariable(InsertAll(m, vars[..|vars| - 1]), vars[|vars| - 1])
  }

  /** Inserting a block records exactly the names already present and the block's variable names. */
  lemma {:induction false} InsertAllKeys(m: map<string, ConstantBufferVariable>, vars: seq<ConstantBufferVariable>)
    ensures InsertAll(m, vars).Keys == m.Keys + Names(vars)
  {
    if vars != [] {
      var n := |vars| - 1;
      InsertAllKeys(m, vars[..n]);
      assert vars == vars[..n] + [vars[n]];
      assert Names(vars) == Names(vars[..n]) + {vars[n].name};
    }
  }

  /** Inserting a block keeps every entry already in the layout. */
  lemma {:induction false} InsertAllKeeps(m: map<string, ConstantBufferVariable>, vars: seq<ConstantBufferVariable>)
    ensures forall name :: name in m ==> name in InsertAll(m, vars) && InsertAll(m, vars)[name] == m[name]
  {
    if vars != [] {
      InsertAllKeeps(m, vars[..|vars| - 1]);
    }
  }

  /** A name new to the layout maps to the first variable of the block that carries it. */
  lemma {:induction false} InsertAllFirst(m: map<string, ConstantBufferVariable>, vars: seq<ConstantBufferVariable>, k: nat)
    requires k < |vars| && vars[k].name !in m && FirstWithName(vars, k)
    ensures vars[k].name in InsertAll(m, vars) && InsertAll(m, vars)[vars[k].name] == vars[k]
  {
    var n := |vars| - 1;
    var init := vars[..n];
    assert InsertAll(m, vars) == InsertVariable(InsertAll(m, init), vars[n]);
    if k < n {
      assert init[k] == vars[k] && FirstWithName(init, k);
      InsertAllFirst(m, init, k);
    } else {
      InsertAllKeys(m, init);
      forall v | v in init
        ensures v.name != vars[k].name
      {
        var j :| 0 <= j < n && init[j] == v;
        assert v == vars[j];
      }
      assert vars[k].name !in InsertAll(m, init);
    }
  }

  /** What reflection and `initialize` determine for one pushed buffer. */
  datatype BlockPlan = BlockPlan(name: string, layout: map<string, ConstantBufferVariable>, requestedSize: u32)

  /** The entry for one reflected block whose buffer starts with layout `layout`. */
  function PlanEntry(block: ShaderBufferDesc, layout: map<string, ConstantBufferVariable>): (r: BlockPlan)
    ensures r.name == block.name && layout.Keys <= r.layout.Keys
    ensures block.variables == [] ==> r.layout == layout && r.requestedSize == 0
  {
    BlockPlan(block.name, InsertAll(layout, block.variables), RequiredSize(block.variables))
  }

  /**
    The buffers `Primitive::initialize` appends, in order. Block 0 reuses the
    member buffer and inserts into its existing layout; later blocks start
    from an empty layout. Without reflected blocks the member buffer keeps its
    name and layout and is sized at 256 bytes.
  */
  function BuildPlan(blocks: seq<ShaderBufferDesc>, memberName: string, memberLayout: map<string, ConstantBufferVariable>): (r: seq<BlockPlan>)
    ensures |r| == if blocks == [] then 1 else |blocks|
    ensures blocks == [] ==> r == [BlockPlan(memberName, memberLayout, DEFAULT_BLOCK_SIZE)]
    ensures forall k :: 0 <= k < |blocks| ==> r[k].name == blocks[k].name
  {
    if blocks == [] then
      [BlockPlan(memberName, memberLayout, DEFAULT_BLOCK_SIZE)]
    else
      seq(|blocks|, k requires 0 <= k < |blocks| =>
        PlanEntry(blocks[k], if k == 0 then memberLayout else map[]))
  }

  /**
    The plan has one entry per reflected block, in reflection order, or the
    single default entry; each block's requested size is its largest variable
    end and each reflected variable is in its layout.
  */
  lemma BuildPlanShape(blocks: seq<ShaderBufferDesc>, memberName: string, memberLayout: map<string, ConstantBufferVariable>)
    ensures var plan := BuildPlan(blocks, memberName, memberLayout);
      |plan| == (if blocks == [] then 1 else |blocks|) &&
      (blocks == [] ==> plan[0].requestedSize == DEFAULT_BLOCK_SIZE && AlignUp256(plan[0].requestedSize) == 256 &&
                        plan[0].name == memberName && plan[0].layout == memberLayout) &&
      (forall k :: 0 <= k < |blocks| ==>
        plan[k].name == blocks[k].name &&
        (forall j :: 0 <= j < |blocks[k].variables| ==>
          EndOffset(blocks[k].variables[j]) <= plan[k].requestedSize &&
          blocks[k].variables[j].name in plan[k].layout) &&
        (blocks[k].variables == [] ==> plan[k].requestedSize == 0 && AlignUp256(plan[k].requestedSize) == 0))
  {
    var plan := BuildPlan(blocks, memberName, memberLayout);
    forall k | 0 <= k < |blocks|
      ensures forall j :: 0 <= j < |blocks[k].variables| ==>
        EndOffset(blocks[k].variables[j]) <= plan[k].requestedSize &&
        blocks[k].variables[j].name in plan[k].layout
      ensures blocks[k].variables == [] ==> plan[k].requestedSize == 0
    {
      var vars := blocks[k].variables;
      RequiredSizeIsMax(vars);
      InsertAllKeys(if k == 0 then memberLayout else map[], vars);
      forall j | 0 <= j < |vars|
        ensures vars[j].name in plan[k].layout
      {
        assert vars[j] in vars;
      }
    }
  }

  /**
    When every variable end plus 255 stays below 2^32, every reflected variable lies
    inside one slot of its buffer, so a write at a variable's offset never
    reaches the next slot.
  */
  lemma VariablesFitInSlot(vars: seq<ConstantBufferVariable>, k: nat)
    requires k < |vars|
    requires forall j :: 0 <= j < |vars| ==> vars[j].offset + vars[j].size + 255 < U32_MODULUS
    ensures vars[k].offset + vars[k].size <= AlignUp256(RequiredSize(vars))
  {
    var r := RequiredSize(vars);
    RequiredSizeIsMax(vars);
    var j :| 0 <= j < |vars| && r == EndOffset(vars[j]);
    assert EndOffset(vars[k]) == vars[k].offset + vars[k].size;
  }

  /** The reflection of a pixel shader with blocks `Globals { time }` and `Lights { lights }`. */
  lemma GlobalsAndLightsPlan()
    ensures var blocks := [ShaderBufferDesc("Globals", [ConstantBufferVariable("time", 0, 4)]),
                           ShaderBufferDesc("Lights", [ConstantBufferVariable("lights", 0, 64)])];
      var plan := BuildPlan(blocks, "", map[]);
      |plan| == 2 &&
      plan[0].name == "Globals" && plan[0].requestedSize == 4 && AlignUp256(plan[0].requestedSize) == 256 &&
      plan[0].layout == map["time" := ConstantBufferVariable("time", 0, 4)] &&
      plan[1].name == "Lights" && plan[1].requestedSize == 64 && AlignUp256(plan[1].requestedSize) == 256 &&
      plan[1].layout == map["lights" := ConstantBufferVariable("lights", 0, 64)]
  {
    var t := [ConstantBufferVariable("time", 0, 4)];
    var l := [ConstantBufferVariable("lights", 0, 64)];
    assert t[..0] == [] && l[..0] == [];
  }

  /** One `SetGraphicsRootConstantBufferView(slot, address)` recorded on the command list. */
  datatype Binding = Binding(slot: nat, address: nat)

  /** The bindings of one stage's loop in `apply`: buffer `i` at slot `firstSlot + i`, with its address. */
  function StageBindings(firstSlot: nat, addresses: seq<nat>): (r: seq<Binding>)
    ensures |r| == |addresses|
    ensures forall i :: 0 <= i < |addresses| ==> r[i] == Binding(firstSlot + i, addresses[i])
    ensures forall i, j :: 0 <= i < j < |r| ==> r[i].slot < r[j].slot
  {
    seq(|addresses|, i requires 0 <= i < |addresses| => Binding(firstSlot + i, addresses[i]))
  }

  /**
    The bindings `apply` records: vertex-stage buffer `i` at slot `i`, then
    pixel-stage buffer `j` at slot `1 + j`, each with the given address.
  */
  function BindOrder(vsAddresses: seq<nat>, psAddresses: seq<nat>): (r: seq<Binding>)
    ensures |r| == |vsAddresses| + |psAddresses|
    ensures forall i :: 0 <= i < |vsAddresses| ==> r[i] == Binding(i, vsAddresses[i])
    ensures forall j :: 0 <= j < |psAddresses| ==> r[|vsAddresses| + j] == Binding(1 + j, psAddresses[j])
  {
    StageBindings(0, vsAddresses) + StageBindings(1, psAddresses)
  }

  /** No two recorded bindings target the same root slot. */
  predicate SlotsDistinct(r: seq<Binding>)
  {
    forall a, b :: 0 <= a < b < |r| ==> r[a].slot != r[b].slot
  }

  /**
    Because the pixel-stage slots start at the fixed slot 1 instead of after
    the vertex-stage buffers, the slots are distinct exactly when there is at
    most one vertex-stage buffer or no pixel-stage buffer.
  */
  lemma SlotsDistinctIff(vsAddresses: seq<nat>, psAddresses: seq<nat>)
    ensures SlotsDistinct(BindOrder(vsAddresses, psAddresses)) <==> |vsAddresses| <= 1 || |psAddresses| == 0
  {
    var r := BindOrder(vsAddresses, psAddresses);
    var v := |vsAddresses|;
    if v > 1 && |psAddresses| > 0 {
      assert r[1].slot == 1 == r[v].slot;
    } else {
      forall a, b | 0 <= a < b < |r|
        ensures r[a].slot != r[b].slot
      {
        if b < v {
          assert r[a].slot == a && r[b].slot == b;
        } else if a < v {
          assert r[a].slot == 0 && r[b].slot == 1 + b - v;
        } else {
          assert r[a].slot == 1 + a - v && r[b].slot == 1 + b - v;
        }
      }
    }
  }

  /**
    The contiguous layout (pixel-stage buffer `j` at slot `|vs| + j`, so that
    every binding's slot is its position) and the fixed offset of 1 give the
    same slots exactly when there is one vertex-stage buffer or no pixel-stage
    buffer.
  */
  lemma MatchesContiguousLayoutIff(vsAddresses: seq<nat>, psAddresses: seq<nat>)
    ensures var r := BindOrder(vsAddresses, psAddresses);
      (forall t :: 0 <= t < |r| ==> r[t].slot == t) <==> |vsAddresses| == 1 || |psAddresses| == 0
  {
    var r := BindOrder(vsAddresses, psAddresses);
    var v := |vsAddresses|;
    if |psAddresses| > 0 && v != 1 {
      assert r[v].slot == 1;
    } else {
      forall t | 0 <= t < |r|
        ensures r[t].slot == t
      {
        if t >= v {
          assert r[v + (t - v)].slot == 1 + (t - v);
        }
      }
    }
  }

  /** One vertex-stage and two pixel-stage buffers bind slots 0, 1 and 2, in that order. */
  lemma OneVertexTwoPixelBindings(v: nat, p0: nat, p1: nat)
    ensures BindOrder([v], [p0, p1]) == [Binding(0, v), Binding(1, p0), Binding(2, p1)]
    ensures SlotsDistinct(BindOrder([v], [p0, p1]))
  {
    SlotsDistinctIff([v], [p0, p1]);
  }

  /** The buffers of a list are pairwise different objects. */
  ghost predicate Distinct(bs: seq<ConstantBuffer>)
  {
    forall a, b :: 0 <= a < b < |bs| ==> bs[a] != bs[b]
  }

  /** Two lists are distinct together when each is and they share no buffer. */
  lemma DistinctConcat(xs: seq<ConstantBuffer>, ys: seq<ConstantBuffer>)
    requires Distinct(xs + ys)
    ensures Distinct(xs) && Distinct(ys)
    ensures forall a, b :: 0 <= a < |xs| && 0 <= b < |ys| ==> xs[a] != ys[b]
  {
    var zs := xs + ys;
    forall a, b | 0 <= a < b < |xs|
      ensures xs[a] != xs[b]
    {
      assert xs[a] == zs[a] && xs[b] == zs[b];
    }
    forall a, b | 0 <= a < b < |ys|
      ensures ys[a] != ys[b]
    {
      assert ys[a] == zs[|xs| + a] && ys[b] == zs[|xs| + b];
    }
    forall a, b | 0 <= a < |xs| && 0 <= b < |ys|
      ensures xs[a] != ys[b]
    {
      assert xs[a] == zs[a] && ys[b] == zs[|xs| + b];
    }
  }

  /** The current slot addresses of a list of buffers. */
  function Addresses(bs: seq<ConstantBuffer>): (r: seq<nat>)
    reads bs
    ensures |r| == |bs| && forall i :: 0 <= i < |bs| ==> r[i] == bs[i].GetGPUAddress()
  {
    seq(|bs|, i reads bs requires 0 <= i < |bs| => bs[i].GetGPUAddress())
  }

  /**
    The inner reflection loop of `Primitive::initialize`: inserts every
    variable of one reflected block into the buffer's layout and keeps the
    running maximum of the variable ends.
  */
  method ReflectVariables(buffer: ConstantBuffer, vars: seq<ConstantBufferVariable>) returns (totalSize: u32)
    modifies buffer`constantBufferData
    ensures totalSize == RequiredSize(vars)
    ensures buffer.constantBufferData == InsertAll(old(buffer.constantBufferData), vars)
  {
    totalSize := 0;
    var j := 0;
    while j < |vars|
      invariant 0 <= j <= |vars|
      invariant totalSize == RequiredSize(vars[..j])
      invariant buffer.constantBufferData == InsertAll(old(buffer.constantBufferData), vars[..j])
    {
      var v := vars[j];
      buffer.constantBufferData := InsertVariable(buffer.constantBufferData, v);
      if EndOffset(v) > totalSize {
        totalSize := EndOffset(v);
      }
      assert vars[..j + 1][..j] == vars[..j];
      j := j + 1;
    }
    assert vars[..j] == vars;
  }

  /** No two buffers of a list share their mapped allocation. */
  ghost predicate SeparateAllocations(bs: seq<ConstantBuffer>)
    reads bs
  {
    forall a, b :: 0 <= a < b < |bs| ==> bs[a].buffer != bs[b].buffer
  }

  /** Buffer `b` is in the state `initialize` leaves for plan entry `e` at address `gpuBase`. */
  ghost predicate Built(b: ConstantBuffer, e: BlockPlan, gpuBase: nat)
    reads b
  {
    b.InitializedAs(e.name, e.layout, e.requestedSize, gpuBase)
  }

  /**
    The body of the reflection loop of `Primitive::initialize` for one block:
    records its variables, names the buffer after the block and initializes
    it with the computed size and the default ring depth.
  */
  method BuildBlock(buffer: ConstantBuffer, block: ShaderBufferDesc, ghost layout: map<string, ConstantBufferVariable>, gpuBase: nat)
    requires buffer.constantBufferData == layout
    modifies buffer
    ensures fresh(buffer.buffer)
    ensures Built(buffer, PlanEntry(block, layout), gpuBase)
  {
    var totalSize := ReflectVariables(buffer, block.variables);
    buffer.name := block.name;
    buffer.Initialize(totalSize, DEFAULT_MAX_DRAW_CALLS, gpuBase);
  }

  /**
    The buffers `initialize` appended, against the plan: one per plan entry,
    the member buffer first, pairwise different with separate allocations,
    the k-th initialized as the k-th plan entry at the k-th allocation's
    address.
  */
  ghost predicate Appended(added: seq<ConstantBuffer>, first: ConstantBuffer, plan: seq<BlockPlan>, gpuAddress: nat -> nat)
    reads added
  {
    |added| == |plan| && 0 < |added| && added[0] == first && Distinct(added) && SeparateAllocations(added) &&
    forall k :: 0 <= k < |plan| ==>
      Built(added[k], plan[k], gpuAddress(k))
  }

  /**
    Buffer `k` of `added` is built from reflected block `k`, block 0 into the
    layout `layout0` of the member buffer and later blocks into an empty one,
    and the buffers and their allocations are pairwise different: the first
    `|added|` blocks are done.
  */
  ghost predicate BuiltBlocks(added: seq<ConstantBuffer>, blocks: seq<ShaderBufferDesc>,
                              layout0: map<string, ConstantBufferVariable>, gpuAddress: nat -> nat)
    reads added
  {
    |added| <= |blocks| && Distinct(added) && SeparateAllocations(added) &&
    forall k :: 0 <= k < |added| ==>
      Built(added[k], PlanEntry(blocks[k], if k == 0 then layout0 else map[]), gpuAddress(k))
  }

  /** One more buffer, different from the earlier ones and built from the next block. */
  lemma BuiltBlocksAppend(added: seq<ConstantBuffer>, blocks: seq<ShaderBufferDesc>,
                          layout0: map<string, ConstantBufferVariable>, gpuAddress: nat -> nat,
                          b: ConstantBuffer, start: map<string, ConstantBufferVariable>)
    requires BuiltBlocks(added, blocks, layout0, gpuAddress) && |added| < |blocks|
    requires b !in added
    requires forall k :: 0 <= k < |added| ==> added[k].buffer != b.buffer
    requires start == if added == [] then layout0 else map[]
    requires Built(b, PlanEntry(blocks[|added|], start), gpuAddress(|added|))
    ensures BuiltBlocks(added + [b], blocks, layout0, gpuAddress)
  {
    var added' := added + [b];
    forall k | 0 <= k < |added'|
      ensures Built(added'[k], PlanEntry(blocks[k], if k == 0 then layout0 else map[]), gpuAddress(k))
    {
      if k < |added| {
        assert added'[k] == added[k];
      }
    }
  }

  lemma AppendAssoc<T>(xs: seq<T>, ys: seq<T>, x: T)
    ensures (xs + ys) + [x] == xs + (ys + [x])
  {
  }

  /**
    What `initialize` appended is the plan: the reflected blocks in order, or
    the single default block when there are none.
  */
  lemma PlanOfInitialize(added: seq<ConstantBuffer>, first: ConstantBuffer, blocks: seq<ShaderBufferDesc>,
                         name0: string, layout0: map<string, ConstantBufferVariable>, gpuAddress: nat -> nat)
    requires blocks != [] ==> BuiltBlocks(added, blocks, layout0, gpuAddress) && |added| == |blocks| && added[0] == first
    requires blocks == [] ==> added == [first] && Built(first, BlockPlan(name0, layout0, DEFAULT_BLOCK_SIZE), gpuAddress(0))
    ensures Appended(added, first, BuildPlan(blocks, name0, layout0), gpuAddress)
  {
  }

  /**
    One binding loop of `apply`: binds buffer `i` at slot `firstSlot + i`
    with its current address, then advances it, for every buffer in order.
  */
  method BindAndAdvance(buffers: seq<ConstantBuffer>, firstSlot: nat) returns (bindings: seq<Binding>)
    requires Distinct(buffers)
    modifies buffers
    ensures bindings == StageBindings(firstSlot, old(Addresses(buffers)))
    ensures forall b :: b in buffers ==> b.AdvancedOnce()
  {
    ghost var addresses := Addresses(buffers);
    bindings := [];
    var i := 0;
    while i < |buffers|
      invariant 0 <= i <= |buffers|
      invariant bindings == StageBindings(firstSlot, addresses[..i])
      invariant forall k :: 0 <= k < i ==> buffers[k].AdvancedOnce()
      invariant forall k :: i <= k < |buffers| ==> unchanged(buffers[k])
    {
      bindings := bindings + [Binding(firstSlot + i, buffers[i].GetGPUAddress())];
      buffers[i].Next();
      i := i + 1;
    }
  }

  /** `Primitive`: the member constant buffer and the per-stage binding lists. */
  class Primitive {
    const constantBuffer: ConstantBuffer
    var vsConstantBuffers: seq<ConstantBuffer>
    var psConstantBuffers: seq<ConstantBuffer>

    constructor ()
      ensures fresh(constantBuffer) && constantBuffer.Valid()
      ensures constantBuffer.name == [] && constantBuffer.constantBufferData == map[]
      ensures vsConstantBuffers == [] && psConstantBuffers == []
    {
      constantBuffer := new ConstantBuffer();
      vsConstantBuffers := [];
      psConstantBuffers := [];
    }

    /**
      One pass of the reflection loop of `initialize`: block `i` is built into
      the member buffer when `i` is 0 and into a new buffer otherwise, and that
      buffer is appended to the pixel-stage list.
    */
    method AppendBlock(i: nat, block: ShaderBufferDesc, gpuBase: nat, ghost added: seq<ConstantBuffer>,
                       ghost blocks: seq<ShaderBufferDesc>, ghost layout0: map<string, ConstantBufferVariable>,
                       ghost gpuAddress: nat -> nat)
      returns (buffer: ConstantBuffer)
      requires |added| == i < |blocks| && block == blocks[i] && gpuBase == gpuAddress(i)
      requires i == 0 ==> constantBuffer.constantBufferData == layout0
      requires i > 0 ==> added[0] == constantBuffer
      requires BuiltBlocks(added, blocks, layout0, gpuAddress)
      modifies this, constantBuffer
      ensures vsConstantBuffers == old(vsConstantBuffers)
      ensures psConstantBuffers == old(psConstantBuffers) + [buffer]
      ensures i == 0 ==> buffer == constantBuffer
      ensures i > 0 ==> fresh(buffer) && unchanged(constantBuffer)
      ensures fresh(buffer.buffer)
      ensures BuiltBlocks(added + [buffer], blocks, layout0, gpuAddress)
    {
      ghost var start := if i == 0 then layout0 else map[];
      if i == 0 {
        buffer := constantBuffer;
        AppendMemberBlock(block, gpuBase);
      } else {
        buffer := AppendNewBlock(block, gpuBase);
      }
      BuiltBlocksAppend(added, blocks, layout0, gpuAddress, buffer, start);
    }

    /** Pass 0 of the reflection loop: block 0 is built into the member buffer, which is appended. */
    method AppendMemberBlock(block: ShaderBufferDesc, gpuBase: nat)
      modifies this, constantBuffer
      ensures vsConstantBuffers == old(vsConstantBuffers)
      ensures psConstantBuffers == old(psConstantBuffers) + [constantBuffer]
      ensures fresh(constantBuffer.buffer)
      ensures Built(constantBuffer, PlanEntry(block, old(constantBuffer.constantBufferData)), gpuBase)
    {
      BuildBlock(constantBuffer, block, constantBuffer.constantBufferData, gpuBase);
      psConstantBuffers := psConstantBuffers + [constantBuffer];
    }

    /** A later pass of the reflection loop: the block is built into a new buffer, which is appended. */
    method AppendNewBlock(block: ShaderBufferDesc, gpuBase: nat) returns (buffer: ConstantBuffer)
      modifies this
      ensures vsConstantBuffers == old(vsConstantBuffers)
      ensures psConstantBuffers == old(psConstantBuffers) + [buffer]
      ensures fresh(buffer) && fresh(buffer.buffer)
      ensures Built(buffer, PlanEntry(block, map[]), gpuBase)
    {
      buffer := new ConstantBuffer();
      BuildBlock(buffer, block, map[], gpuBase);
      psConstantBuffers := psConstantBuffers + [buffer];
    }

    /**
      The reflection loop of `initialize`: for block `i`, the member buffer
      when `i` is 0 and a new buffer otherwise is built from the block and
      appended to the pixel-stage list; the k-th allocation gets GPU address
      `gpuAddress(k)`. `added` is the list of appended buffers.
    */
    method ReflectBlocks(shaderBuffers: seq<ShaderBufferDesc>, gpuAddress: nat -> nat)
      returns (constantBufferFound: bool, ghost added: seq<ConstantBuffer>)
      modifies this, constantBuffer
      ensures constantBufferFound <==> shaderBuffers != []
      ensures vsConstantBuffers == old(vsConstantBuffers)
      ensures psConstantBuffers == old(psConstantBuffers) + added && |added| == |shaderBuffers|
      ensures shaderBuffers != [] ==> added[0] == constantBuffer
      ensures forall k :: 1 <= k < |added| ==> fresh(added[k])
      ensures forall k :: 0 <= k < |added| ==> fresh(added[k].buffer)
      ensures shaderBuffers == [] ==>
        constantBuffer.name == old(constantBuffer.name) && constantBuffer.constantBufferData == old(constantBuffer.constantBufferData)
      ensures BuiltBlocks(added, shaderBuffers, old(constantBuffer.constantBufferData), gpuAddress)
    {
      ghost var ps0 := psConstantBuffers;
      ghost var layout0 := constantBuffer.constantBufferData;
      added := [];
      constantBufferFound := false;
      var i := 0;
      while i < |shaderBuffers|
        invariant 0 <= i <= |shaderBuffers|
        invariant constantBufferFound <==> i > 0
        invariant vsConstantBuffers == old(vsConstantBuffers)
        invariant psConstantBuffers == ps0 + added && |added| == i
        invariant i > 0 ==> added[0] == constantBuffer
        invariant forall k :: 1 <= k < i ==> fresh(added[k])
        invariant forall k :: 0 <= k < i ==> fresh(added[k].buffer)
        invariant i == 0 ==> constantBuffer.name == old(constantBuffer.name) && constantBuffer.constantBufferData == layout0
        invariant BuiltBlocks(added, shaderBuffers, layout0, gpuAddress)
      {
        var buffer := AppendBlock(i, shaderBuffers[i], gpuAddress(i), added, shaderBuffers, layout0, gpuAddress);
        AppendAssoc(ps0, added, buffer);
        added := added + [buffer];
        if i == 0 {
          constantBufferFound := true;
        }
        i := i + 1;
      }
    }

    /**
      `initialize` on the reflection of the pixel shader: appends one buffer
      per reflected block, in index order, to the pixel-stage list (block 0 is
      the member buffer, later blocks are new objects), or the member buffer
      sized at 256 bytes when there is no block, in which case it reports the
      warning.
    */
    method Initialize(shaderBuffers: seq<ShaderBufferDesc>, gpuAddress: nat -> nat) returns (noBuffersWarning: bool)
      modifies this, constantBuffer
      ensures noBuffersWarning <==> shaderBuffers == []
      ensures vsConstantBuffers == old(vsConstantBuffers)
      ensures var n0 := |old(psConstantBuffers)|;
        n0 <= |psConstantBuffers| && psConstantBuffers[..n0] == old(psConstantBuffers) &&
        Appended(psConstantBuffers[n0..], constantBuffer, BuildPlan(shaderBuffers, old(constantBuffer.name), old(constantBuffer.constantBufferData)), gpuAddress)
      ensures forall k :: |old(psConstantBuffers)| < k < |psConstantBuffers| ==> fresh(psConstantBuffers[k])
      ensures forall k :: |old(psConstantBuffers)| <= k < |psConstantBuffers| ==> fresh(psConstantBuffers[k].buffer)
      ensures old(vsConstantBuffers) == [] && old(psConstantBuffers) == [] ==>
        Distinct(vsConstantBuffers + psConstantBuffers)
    {
      ghost var ps0 := psConstantBuffers;
      ghost var name0, layout0 := constantBuffer.name, constantBuffer.constantBufferData;
      var constantBufferFound, added := ReflectBlocks(shaderBuffers, gpuAddress);
      if !constantBufferFound {
        constantBuffer.Initialize(DEFAULT_BLOCK_SIZE, DEFAULT_MAX_DRAW_CALLS, gpuAddress(0));
        psConstantBuffers := psConstantBuffers + [constantBuffer];
        added := [constantBuffer];
      }
      noBuffersWarning := !constantBufferFound;
      assert psConstantBuffers[..|ps0|] == ps0 && psConstantBuffers[|ps0|..] == added;
      assert forall j :: 0 <= j < |added| ==> fresh(added[j].buffer) && (j > 0 ==> fresh(added[j]));
      forall k | |ps0| <= k < |psConstantBuffers|
        ensures fresh(psConstantBuffers[k].buffer) && (k > |ps0| ==> fresh(psConstantBuffers[k]))
      {
        assert psConstantBuffers[k] == added[k - |ps0|];
      }
      PlanOfInitialize(added, constantBuffer, shaderBuffers, name0, layout0, gpuAddress);
    }

    /**
      `apply`: binds vertex-stage buffer `i` to slot `i` and pixel-stage buffer
      `j` to slot `1 + j`, each with its address from before the call, and
      advances every buffer exactly once, each right after its binding.
    */
    method Apply() returns (bindings: seq<Binding>)
      requires Distinct(vsConstantBuffers + psConstantBuffers)
      modifies vsConstantBuffers, psConstantBuffers
      ensures bindings == BindOrder(old(Addresses(vsConstantBuffers)), old(Addresses(psConstantBuffers)))
      ensures forall b :: b in vsConstantBuffers + psConstantBuffers ==> b.AdvancedOnce()
    {
      DistinctConcat(vsConstantBuffers, psConstantBuffers);
      var vsBindings := BindAndAdvance(vsConstantBuffers, 0);
      var psBindings := BindAndAdvance(psConstantBuffers, 1);
      bindings := vsBindings + psBindings;
    }
  }
}
